=== FILE: README.md ===
# Paper-trading ledger and weather helpers, in Dafny

This project models two Angular components of an admin dashboard.

**Trading** (`trading.dfy`, module `Trading`) models the trading screen's
`TradingComponent`. It is a paper-trading account with these parts:

- a `balance`, starting at 1000;
- a pending `inputDeposit`;
- the selected margin and leverage;
- a map from symbol to the last traded price;
- the open leveraged positions, most recent first.

The component is a class whose methods change those fields:

- `DepositFunds` credits the pending deposit.
- `OpenPosition` debits the margin and puts a new position at the front.
- `ClosePosition` pays back margin plus pnl and removes the position.
- `UpdatePositionsPnL` / `TriggerLiquidation` are the per-tick repricing pass.
- `OnTrade` stores the price and then reprices.
- `InitMarketTable` writes the six zero price slots.

The positions are values in a sequence field, because nothing else refers to them. The repricing loop is proved equal to a recursive function, `UpdatedPositions`, which reproduces the component's iteration exactly. That includes the position it passes over after a liquidation (see Findings). Lemmas then state the properties of the repricing pass against that function:

- other symbols untouched;
- positions stay well formed;
- every old position is kept, repriced, or liquidated, and every new one comes from an old one;
- margin only forfeited;
- agreement with the intended update when nothing is liquidated.

Further lemmas cover the position algebra:

- the liquidation price as `entry·(1 ∓ 1/leverage)`;
- ROE as leverage times the relative move;
- liquidation exactly at the liquidation price.

Conservation of `balance + Σ margin` and `balance + Σ (margin + pnl)` is part of the method contracts.

**Cuaca** (`cuaca.dfy`, module `Cuaca`) models two pure helpers of the weather screen:

- `kelvinToCelcius`, with JavaScript `Math.round` as `⌊x + ½⌋`;
- the forecast description cell, built as `main + " || " + description` and split on `"||"` by the column renderer. `split` is modelled as a function, and joining its pieces with `"||"` is proved to give the string back (a left inverse only: `["a|", "b"]` joins to `"a|||b"`, which splits as `["a", "|b"]`).

The model follows the component as it is written:

- The component keeps no position history, no status field and no realized-profit or deposit totals.
- A liquidated position is simply removed, with no pnl reset to `−margin`.
- `openPosition` checks the price before the balance.
- A non-positive deposit is silently ignored, not an error.
- A bad close index is a precondition, not an error value.
- The repricing pass skips the position after a liquidated one.

## Model

| member | source | states |
|---|---|---|
| Trading.Pnl | src/app/trading/trading.component.ts:172-179 | the futures pnl of a position is 0 while the price has not moved |
| Trading.PnlSign | src/app/trading/trading.component.ts:172-179 | with a positive coin amount, the pnl is positive exactly when the price moved up for a long or down for a short, and 0 exactly when it did not move |
| Trading.LiquidationPriceLosesMargin | src/app/trading/trading.component.ts:101-109 | at the liquidation price `LiquidationPrice` computes, the pnl is exactly −margin: the loss has eaten the whole margin |
| Trading.LiquidatableIffRoeAtMinus100 | src/app/trading/trading.component.ts:182-186 | with a positive margin, the liquidation check pnl ≤ −margin is the same as an ROE of −100% or worse |
| Trading.Reprice | src/app/trading/trading.component.ts:170-182 | a visit sets the current price to the new price and the pnl to the futures pnl at that price, and changes no field other than current price, pnl and ROE |
| Trading.NewPosition | src/app/trading/trading.component.ts:96-125 | the opened position has entry = current = the given price, pnl = ROE = 0, size = margin × leverage, amount × entry = size, liquidation price entry·(1 − 1/leverage) for a long and entry·(1 + 1/leverage) for a short, and it is well formed |
| Trading.RepriceAtCurrentPrice | src/app/trading/trading.component.ts:170-182 | repricing a well-formed position at the price it shows changes nothing |
| Trading.RepriceLastWins | src/app/trading/trading.component.ts:170-182 | repricing twice equals repricing once at the later price: pnl and ROE depend only on the latest tick |
| Trading.RoeIsLeveragedReturn | src/app/trading/trading.component.ts:172-182 | for a position holding margin × leverage / entry coins, as every opened one does, the ROE after a tick is leverage × (favourable price move / entry) × 100 |
| Trading.LiquidatedIffPriceCrossesLiquidation | src/app/trading/trading.component.ts:101-109 | for a positive entry price, the check pnl ≤ −margin fires exactly when price ≤ liquidation price (long) or price ≥ liquidation price (short) |
| Trading.RemoveAt | src/app/trading/trading.component.ts:139 | `splice(i, 1)` removes exactly element i and keeps the others in order |
| Trading.SumByRemoveAt | src/app/trading/trading.component.ts:131-140 | removing one position takes exactly its share out of a total over the positions |
| Trading.UpdatedPositions | src/app/trading/trading.component.ts:165-201 | the list after one tick as the `forEach`/`splice` pass leaves it; never longer than before |
| Trading.RepricedPositions | src/app/trading/trading.component.ts:165-201 | the intended tick: every surviving position of the symbol shows the new price and is not liquidatable, the positions of other symbols are kept in order, every position of the symbol that does not reach liquidation is kept, repriced, and the list shrinks by exactly the number of positions of the symbol that reach liquidation |
| Trading.RepricedPositionsComeFromOld | src/app/trading/trading.component.ts:165-201 | every position left by the intended tick was open before: unchanged on another symbol, or a repricing of a position of the symbol |
| Trading.UpdatedKeepsOtherSymbols | src/app/trading/trading.component.ts:169 | positions of other symbols are kept, unchanged and in the same relative order |
| Trading.UpdatedPreservesWellFormed | src/app/trading/trading.component.ts:165-201 | after a tick every open position is still well formed and none is at or past liquidation |
| Trading.UpdatedPositionsComeFromOld | src/app/trading/trading.component.ts:165-201 | every position after a tick was open before, either unchanged or repriced on the symbol and not liquidatable |
| Trading.UpdatedKeepsOrLiquidates | src/app/trading/trading.component.ts:165-201 | every position open before a tick is, after it, still there unchanged, or there repriced, or a position of the symbol that reached liquidation; nothing else disappears |
| Trading.UpdatedForfeitsMargin | src/app/trading/trading.component.ts:193-196 | a tick never increases the margin committed to open positions; liquidation pays nothing back |
| Trading.UpdatedAgreesWithoutLiquidation | src/app/trading/trading.component.ts:165-191 | when no position of the symbol reaches liquidation, the component's pass equals the intended one |
| Trading.LiquidationPassesOverNext | src/app/trading/trading.component.ts:167-196 | two adjacent positions past liquidation: the pass leaves the second open, the intended update removes both |
| Trading.LiquidationPassesOverNextExample | src/app/trading/trading.component.ts:167-196 | two long BTC positions at entry 100, margin 10, 10x and a trade at 80: the second stays open |
| Trading.TradingComponent.constructor | src/app/trading/trading.component.ts:40-50 | balance 1000, deposit 0, leverage 10, margin 10, no prices, no positions |
| Trading.TradingComponent.DepositFunds | src/app/trading/trading.component.ts:71-77 | a positive deposit is added to the balance and reset to 0; otherwise nothing changes |
| Trading.TradingComponent.OpenPosition | src/app/trading/trading.component.ts:80-129 | NoPrice if the symbol has no or a zero price, else InsufficientBalance if margin > balance, with nothing changed; otherwise balance − margin and the new position in front of the unchanged old list; balance + Σ margin and balance + Σ (margin + pnl) are conserved; the balance stays ≥ 0 |
| Trading.TradingComponent.ClosePosition | src/app/trading/trading.component.ts:131-140 | balance gains exactly margin + pnl of position i, only that position is removed, the rest keep their order, balance + Σ (margin + pnl) is conserved and the balance stays ≥ 0 |
| Trading.TradingComponent.TriggerLiquidation | src/app/trading/trading.component.ts:193-201 | removes the position at the index and touches nothing else, in particular not the balance |
| Trading.TradingComponent.UpdatePositionsPnL | src/app/trading/trading.component.ts:165-191 | the loop over the indices below the starting length, skipping those gone, leaves exactly `UpdatedPositions` of the old list |
| Trading.TradingComponent.OnTrade | src/app/trading/trading.component.ts:147-162 | the price is stored for the symbol, the positions become `UpdatedPositions` of the old ones, the balance is unchanged and the account stays valid |
| Trading.TradingComponent.InitMarketTable | src/app/trading/trading.component.ts:204-210 | each of the six pairs gets the price 0; no other key is added or changed |
| Trading.OpenAfterInitHasNoPrice | src/app/trading/trading.component.ts:81-86 | right after the market table is built, opening on any of the six listed pairs is rejected for want of a price |
| Cuaca.JsRound | src/app/cuaca/cuaca.component.ts:118 | `Math.round` gives the integer in (x − ½, x + ½] |
| Cuaca.KelvinToCelcius | src/app/cuaca/cuaca.component.ts:116-121 | the result is a whole number of hundredths within (−0.005, 0.005] of kelvin − 273.15 |
| Cuaca.KelvinToCelciusIsNearestHundredth | src/app/cuaca/cuaca.component.ts:117-118 | that hundredth is unique: the result is round(100·(k − 273.15))/100 and no other |
| Cuaca.KelvinToCelciusExact | src/app/cuaca/cuaca.component.ts:117-118 | a temperature already in hundredths of a degree converts exactly |
| Cuaca.KelvinToCelciusIdempotent | src/app/cuaca/cuaca.component.ts:117-118 | converting a rounded result back and again changes nothing |
| Cuaca.KelvinToCelciusHalfUp | src/app/cuaca/cuaca.component.ts:118 | a value half-way between hundredths rounds towards +∞, also below zero |
| Cuaca.KelvinToCelciusMonotone | src/app/cuaca/cuaca.component.ts:117-118 | a higher Kelvin reading never gives a lower Celsius value |
| Cuaca.DescriptionCell | src/app/cuaca/cuaca.component.ts:74 | the cell is the main group, then `" \|\| "`, then the description, with nothing else |
| Cuaca.RenderDescription | src/app/cuaca/cuaca.component.ts:44-52 | a value without "\|\|" renders as the whole value in bold followed by the text "undefined", since there is no second piece |
| Cuaca.Split | src/app/cuaca/cuaca.component.ts:46 | `split("\|\|")` gives at least one piece, the first a prefix of the input |
| Cuaca.JoinSplit | src/app/cuaca/cuaca.component.ts:46 | joining the pieces with "\|\|" gives back the original string (a left inverse of the split) |
| Cuaca.SplitPiecesHaveNoSeparator | src/app/cuaca/cuaca.component.ts:46 | no piece of the split contains "\|\|" |
| Cuaca.SplitWithoutSeparator | src/app/cuaca/cuaca.component.ts:46 | a string without "\|\|" is one piece |
| Cuaca.SplitAtFirstSeparator | src/app/cuaca/cuaca.component.ts:46 | the first "\|\|" after a separator-free piece not ending in '\|' ends that piece |
| Cuaca.DescriptionCellSplits | src/app/cuaca/cuaca.component.ts:74 | if neither part contains "\|\|", the cell splits into main + " " and " " + description |
| Cuaca.RenderDescriptionCell | src/app/cuaca/cuaca.component.ts:44-52 | the rendered cell is `<strong>` main ` </strong> <br /> ` description |

## Left out

- The WebSocket connection, the stream URL, `JSON.parse`/`parseFloat` of a message and closing on destroy are network I/O. `OnTrade` takes the parsed symbol and price.
- DataTables/jQuery rendering (`addMarketRow`, `updateMarketTable`, `formatCurrency`, table setup) and `alert`/`console` output are UI side effects. The alerts of `openPosition` are returned as an `OpenOutcome` value instead.
- The id is `Date.now()`, a clock reading. It is the parameter `now` of `OpenPosition`.
- Prices and amounts are `real`, with no IEEE-754 rounding, infinities or NaN. `!currentPrice` is modelled as "missing or 0"; a NaN price is not modelled.
- Cuaca.KelvinToCelcius: the conversion is over exact reals. In binary64 arithmetic a reading half-way between two hundredths can round differently: `273.155 − 273.15` is 0.0049999999999954525 in binary64, so the component shows 0 where the model gives 0.01. `KelvinToCelciusHalfUp` describes `Math.round` on exact values only.
- Trading.TradingComponent.OpenPosition: requires margin > 0 and leverage > 0, which the component does not check. A zero margin gives 0/0 in the liquidation price, and a non-positive leverage breaks the position invariant.
- Trading.TradingComponent.ClosePosition: requires a valid index. The component does not check it and fails on a bad one.
- Trading.TradingComponent.UpdatePositionsPnL: requires nonzero margins, which the ROE divides by; it does not require the full account invariant. `OnTrade` carries that invariant across a tick.
- Trading.LiquidatedIffPriceCrossesLiquidation: stated only for a positive entry price, as exchange prices are.
- Positions are values in a sequence, not shared objects. The component's handler mutates the object before removing it, and nothing else holds a reference to it, so no aliasing is lost.
- In the weather component, the HTTP forecast request, `moment` time formatting, the icon renderer, `handleEnter` and the Renderer2 body-class changes are network, library and UI calls.
- The route guard admits a visitor only when the `userId` cookie is not missing, `""` or `"undefined"`; otherwise it sends them to `login`. It is left out because what it decides depends on what the cookie library (not part of this model) returns.
- The routes and the header, sidebar, dashboard and logout components are framework wiring.

## Findings

| source | as written | input that shows it | evidently intended | confidence | as-written member | corrected member |
|---|---|---|---|---|---|---|
| src/app/trading/trading.component.ts:167-196 | `forEach` over `openPositions` while `triggerLiquidation` calls `splice(index, 1)` on it: the position that slides into the freed index is never visited in that tick | two long BTCUSDT positions, entry 100, margin 10, leverage 10 (liquidation price 90), then a trade at 80: the first is liquidated and the second stays open, still showing price 100 and pnl 0 | every position of the symbol is repriced, and every one past liquidation is removed | not executed | Trading.LiquidationPassesOverNext | Trading.RepricedPositions |

The component model (`UpdatePositionsPnL`, `OnTrade`) keeps the behaviour as written, because that is what the screen does. `RepricedPositions` is the intended update. `UpdatedAgreesWithoutLiquidation` shows the two coincide whenever no position of the symbol is liquidated.

=== FILE: cuaca.dfy ===
/** The two pure helpers of the weather forecast screen: the Kelvin to
    Celsius conversion shown in the temperature column, and the
    "main || description" cell built for each forecast row and split again
    when the table renders it. */
module Cuaca {

  // ---------------------------------------------------------------------
  // Temperature
  // ---------------------------------------------------------------------

  /** JavaScript's `Math.round`: the nearest integer, halves going up. */
  function JsRound(x: real): (n: int)
    ensures x - 0.5 < n as real <= x + 0.5
  {
    (x + 0.5).Floor
  }

  /** Kelvin to degrees Celsius, rounded to two decimals with `Math.round`. */
  function KelvinToCelcius(kelvin: real): (celcius: real)
    ensures (celcius * 100.0).Floor as real == celcius * 100.0
    ensures -0.005 < celcius - (kelvin - 273.15) <= 0.005
  {
    JsRound((kelvin - 273.15) * 100.0) as real / 100.0
  }

  /** The result is THE hundredth in the window (x - 0.005, x + 0.005]
      around the exact value x: no other whole number of hundredths is. */
  lemma KelvinToCelciusIsNearestHundredth(kelvin: real, n: int)
    requires -0.005 < n as real / 100.0 - (kelvin - 273.15) <= 0.005
    ensures KelvinToCelcius(kelvin) == n as real / 100.0
  {
    var m := JsRound((kelvin - 273.15) * 100.0);
    assert m as real / 100.0 == KelvinToCelcius(kelvin);
    assert -1.0 < (n - m) as real < 1.0;
  }

  /** A temperature already given in hundredths of a degree comes back unchanged. */
  lemma KelvinToCelciusExact(n: int)
    ensures KelvinToCelcius(n as real / 100.0 + 273.15) == n as real / 100.0
  {
    KelvinToCelciusIsNearestHundredth(n as real / 100.0 + 273.15, n);
  }

  /** Converting a rounded result back to Kelvin and again changes nothing. */
  lemma KelvinToCelciusIdempotent(kelvin: real)
    ensures KelvinToCelcius(KelvinToCelcius(kelvin) + 273.15) == KelvinToCelcius(kelvin)
  {
    var c := KelvinToCelcius(kelvin);
    var n := (c * 100.0).Floor;
    assert n as real / 100.0 == c;
    KelvinToCelciusExact(n);
  }

  /** A value exactly half-way between two hundredths rounds up, also below zero. */
  lemma KelvinToCelciusHalfUp(n: int)
    ensures KelvinToCelcius((n as real + 0.5) / 100.0 + 273.15) == (n + 1) as real / 100.0
  {
    KelvinToCelciusIsNearestHundredth((n as real + 0.5) / 100.0 + 273.15, n + 1);
  }

  /** A warmer reading never shows a lower temperature. */
  lemma KelvinToCelciusMonotone(k1: real, k2: real)
    requires k1 <= k2
    ensures KelvinToCelcius(k1) <= KelvinToCelcius(k2)
  {
    var a, b := JsRound((k1 - 273.15) * 100.0), JsRound((k2 - 273.15) * 100.0);
    assert (k1 - 273.15) * 100.0 <= (k2 - 273.15) * 100.0;
    assert a <= b;
  }

  // ---------------------------------------------------------------------
  // The weather description cell
  // ---------------------------------------------------------------------

  /** Whether `s` holds two adjacent '|' characters. */
  predicate HasSeparator(s: string)
  {
    exists i :: 0 <= i < |s| - 1 && s[i] == '|' && s[i + 1] == '|'
  }

  /** The description cell of a forecast row: the weather's main group, the
      separator padded with spaces, and the detailed description. */
  function DescriptionCell(main: string, description: string): (cell: string)
    ensures |cell| == |main| + 4 + |description|
    ensures cell[..|main|] == main
    ensures cell[|main|..|main| + 4] == " || "
    ensures cell[|main| + 4..] == description
  {
    main + " " + "||" + " " + description
  }

  /** JavaScript's `split("||")`: the pieces between the occurrences of the
      separator found from left to right without overlapping; a string
      without one gives a single piece. */
  function Split(s: string): (parts: seq<string>)
    ensures |parts| >= 1
    ensures parts[0] <= s
    decreases |s|
  {
    if |s| < 2 then [s]
    else if s[0] == '|' && s[1] == '|' then [""] + Split(s[2..])
    else
      var rest := Split(s[1..]);
      [[s[0]] + rest[0]] + rest[1..]
  }

  /** `join("||")`. Joining the pieces of a split gives the string back
      (`JoinSplit`); the converse fails for pieces holding a '|' at a seam. */
  function Join(parts: seq<string>): string
    requires |parts| >= 1
  {
    if |parts| == 1 then parts[0] else parts[0] + "||" + Join(parts[1..])
  }

  /** The renderer of the description column: the first piece in bold, a
      line break, then the second piece; with no second piece JavaScript
      concatenates the text "undefined". Further pieces are dropped. */
  function RenderDescription(data: string): (html: string)
    ensures !HasSeparator(data) ==> html == "<strong>" + data + "</strong> <br />undefined"
  {
    var parts := Split(data);
    var html := "<strong>" + parts[0] + "</strong> <br />" + (if |parts| >= 2 then parts[1] else "undefined");
    // Without a separator the whole string is the first and only piece.
    if HasSeparator(data) then html else SplitWithoutSeparator(data); html
  }

  lemma HasSeparatorTail(s: string)
    requires |s| >= 1
    ensures HasSeparator(s) <==> (|s| >= 2 && s[0] == '|' && s[1] == '|') || HasSeparator(s[1..])
  {
    if HasSeparator(s[1..]) {
      var i :| 0 <= i < |s[1..]| - 1 && s[1..][i] == '|' && s[1..][i + 1] == '|';
      assert s[i + 1] == '|' && s[i + 2] == '|';
    }
    if HasSeparator(s) && !(|s| >= 2 && s[0] == '|' && s[1] == '|') {
      var i :| 0 <= i < |s| - 1 && s[i] == '|' && s[i + 1] == '|';
      assert i >= 1;
      assert s[1..][i - 1] == '|' && s[1..][i] == '|';
    }
  }

  /** Joining pieces whose first is empty starts with the separator. */
  lemma JoinEmptyHead(tail: seq<string>)
    requires |tail| >= 1
    ensures Join([""] + tail) == "||" + Join(tail)
  {
    var parts := [""] + tail;
    assert parts[0] == "" && parts[1..] == tail;
  }

  lemma PrefixSeparated(c: char, head: string, tail: string)
    ensures ([c] + head) + "||" + tail == [c] + (head + "||" + tail)
  {
  }

  /** Prefixing a character to the first piece prefixes it to the join. */
  lemma JoinConsHead(c: char, rest: seq<string>)
    requires |rest| >= 1
    ensures Join([[c] + rest[0]] + rest[1..]) == [c] + Join(rest)
  {
    var parts := [[c] + rest[0]] + rest[1..];
    assert parts[0] == [c] + rest[0];
    assert parts[1..] == rest[1..];
    if |rest| > 1 {
      PrefixSeparated(c, rest[0], Join(rest[1..]));
    }
  }

  /** Splitting and joining again gives back the original string. */
  lemma {:induction false} JoinSplit(s: string)
    ensures Join(Split(s)) == s
    decreases |s|
  {
    if |s| < 2 {
    } else if s[0] == '|' && s[1] == '|' {
      JoinSplit(s[2..]);
      JoinEmptyHead(Split(s[2..]));
      assert s == "||" + s[2..];
    } else {
      JoinSplit(s[1..]);
      JoinConsHead(s[0], Split(s[1..]));
      assert s == [s[0]] + s[1..];
    }
  }

  /** No piece of a split holds the separator. */
  lemma {:induction false} SplitPiecesHaveNoSeparator(s: string)
    ensures forall i :: 0 <= i < |Split(s)| ==> !HasSeparator(Split(s)[i])
    decreases |s|
  {
    if |s| < 2 {
    } else if s[0] == '|' && s[1] == '|' {
      SplitPiecesHaveNoSeparator(s[2..]);
      var parts := [""] + Split(s[2..]);
      forall i | 0 <= i < |parts| ensures !HasSeparator(parts[i]) {
        if i > 0 {
          assert parts[i] == Split(s[2..])[i - 1];
        }
      }
    } else {
      var rest := Split(s[1..]);
      SplitPiecesHaveNoSeparator(s[1..]);
      var head := [s[0]] + rest[0];
      assert !HasSeparator(head) by {
        HasSeparatorTail(head);
        assert head[1..] == rest[0];
        if |rest[0]| >= 1 {
          assert rest[0][0] == s[1];
        }
      }
      var parts := [head] + rest[1..];
      forall i | 0 <= i < |parts| ensures !HasSeparator(parts[i]) {
        if i > 0 {
          assert parts[i] == rest[i];
        }
      }
    }
  }

  /** A string without the separator is a single piece. */
  lemma {:induction false} SplitWithoutSeparator(s: string)
    requires !HasSeparator(s)
    ensures Split(s) == [s]
    decreases |s|
  {
    if |s| >= 2 {
      HasSeparatorTail(s);
      SplitWithoutSeparator(s[1..]);
      assert [s[0]] + s[1..] == s;
    }
  }

  /** The first separator after a piece that has none and does not end in
      '|' ends that piece. */
  lemma {:induction false} SplitAtFirstSeparator(x: string, y: string)
    requires !HasSeparator(x)
    requires x == [] || x[|x| - 1] != '|'
    ensures Split(x + "||" + y) == [x] + Split(y)
    decreases |x|
  {
    var s := x + "||" + y;
    if x == [] {
      assert s == "||" + y;
      assert s[2..] == y;
    } else {
      HasSeparatorTail(x);
      assert s[1..] == x[1..] + "||" + y;
      if |x| >= 2 {
        assert x[1..][|x[1..]| - 1] == x[|x| - 1];
      }
      SplitAtFirstSeparator(x[1..], y);
      assert !(s[0] == '|' && s[1] == '|');
      assert [s[0]] + x[1..] == x;
    }
  }

  /** When neither part holds the separator, the renderer splits the cell
      back into the two parts, each keeping the space next to the separator. */
  lemma DescriptionCellSplits(main: string, description: string)
    requires !HasSeparator(main) && !HasSeparator(description)
    ensures Split(DescriptionCell(main, description)) == [main + " ", " " + description]
  {
    var x, y := main + " ", " " + description;
    assert DescriptionCell(main, description) == x + "||" + y;
    assert !HasSeparator(x) by {
      forall i | 0 <= i < |x| - 1 ensures !(x[i] == '|' && x[i + 1] == '|') {
        if i < |main| - 1 {
          assert x[i] == main[i] && x[i + 1] == main[i + 1];
        } else {
          assert x[i + 1] == ' ';
        }
      }
    }
    assert !HasSeparator(y) by {
      HasSeparatorTail(y);
      assert y[1..] == description;
    }
    SplitAtFirstSeparator(x, y);
    SplitWithoutSeparator(y);
  }

  /** What the description column shows for a forecast row. */
  lemma RenderDescriptionCell(main: string, description: string)
    requires !HasSeparator(main) && !HasSeparator(description)
    ensures RenderDescription(DescriptionCell(main, description))
         == "<strong>" + main + " </strong> <br /> " + description
  {
    DescriptionCellSplits(main, description);
  }
}

=== FILE: trading.dfy ===
/** The paper-trading ledger of the trading screen: an account balance, the
    latest price per symbol and a most-recent-first list of leveraged
    positions, repriced on every tick of the exchange's trade stream. */
module Trading {

  /** The side of a position (`'LONG' | 'SHORT'` in the component). */
  datatype Direction = Long | Short

  /** One open leveraged position. In the component this is an object that
      the price handler updates in place; nothing outside the list of open
      positions refers to it, so a value in a sequence is enough here. */
  datatype Position = Position(
    id: int,
    symbol: string,
    direction: Direction,
    entryPrice: real,
    currentPrice: real,
    margin: real,
    leverage: real,
    size: real,
    amountCoin: real,
    liquidationPrice: real,
    pnl: real,
    pnlPercent: real)

  /** Why `OpenPosition` did or did not open: the two rejections are the two
      alerts the component shows before returning. */
  datatype OpenOutcome = Opened | NoPrice | InsufficientBalance

  /** The six pairs whose price slot is set to 0 when the market table is built. */
  const Pairs: seq<string> := ["BTCUSDT", "ETHUSDT", "SOLUSDT", "XRPUSDT", "BNBUSDT", "DOGEUSDT"]

  // ---------------------------------------------------------------------
  // Position arithmetic
  // ---------------------------------------------------------------------

  /** Futures profit or loss of `amount` coins entered at `entry` when the price is `price`. */
  function Pnl(dir: Direction, entry: real, price: real, amount: real): (pnl: real)
    ensures price == entry ==> pnl == 0.0
  {
    match dir
    case Long => (price - entry) * amount
    case Short => (entry - price) * amount
  }

  /** The isolated-margin liquidation price as the component computes it:
      the entry price moved against the position by margin / amount. */
  function LiquidationPrice(dir: Direction, entry: real, margin: real, amount: real): real
    requires amount != 0.0
  {
    match dir
    case Long => entry - margin / amount
    case Short => entry + margin / amount
  }

  /** The liquidation check of the price handler: the loss has eaten the whole margin. */
  predicate IsLiquidatable(pos: Position)
  {
    pos.pnl <= -pos.margin
  }

  /** What holds of every open position: the fields fixed at opening agree
      with each other, pnl and ROE agree with the last price seen, and the
      position has not reached liquidation. */
  ghost predicate WellFormed(pos: Position)
  {
    && pos.margin > 0.0
    && pos.leverage > 0.0
    && pos.entryPrice != 0.0
    && pos.size == pos.margin * pos.leverage
    && pos.amountCoin == pos.size / pos.entryPrice
    && pos.amountCoin != 0.0
    && pos.liquidationPrice == LiquidationPrice(pos.direction, pos.entryPrice, pos.margin, pos.amountCoin)
    && pos.pnl == Pnl(pos.direction, pos.entryPrice, pos.currentPrice, pos.amountCoin)
    && pos.pnlPercent == pos.pnl / pos.margin * 100.0
    && !IsLiquidatable(pos)
  }

  ghost predicate AllWellFormed(ps: seq<Position>)
  {
    forall i :: 0 <= i < |ps| ==> WellFormed(ps[i])
  }

  predicate MarginsNonzero(ps: seq<Position>)
  {
    forall i :: 0 <= i < |ps| ==> ps[i].margin != 0.0
  }

  /** The arithmetic of opening with margin `m` at leverage `l` and price `p`:
      the coin amount, and the liquidation distance margin / amount = p / l. */
  lemma OpeningArithmetic(m: real, l: real, p: real)
    requires p != 0.0 && m > 0.0 && l > 0.0
    ensures m * l / p != 0.0 && (m * l / p) * p == m * l
    ensures p - m / (m * l / p) == p * (1.0 - 1.0 / l)
    ensures p + m / (m * l / p) == p * (1.0 + 1.0 / l)
  {
    var a := m * l / p;
    assert a * p == m * l;
    assert m / a == p / l by {
      assert a * (p / l) == m * l * p / (p * l);
    }
  }

  /** The record `openPosition` builds once price and balance are accepted.
      The component checks neither the margin nor the leverage; both must
      be positive here, since a zero margin gives 0/0 in the liquidation price. */
  function NewPosition(id: int, symbol: string, dir: Direction, price: real, margin: real, leverage: real): (pos: Position)
    requires price != 0.0 && margin > 0.0 && leverage > 0.0
    ensures pos.id == id && pos.symbol == symbol && pos.direction == dir
    ensures pos.entryPrice == price && pos.currentPrice == price
    ensures pos.margin == margin && pos.leverage == leverage
    ensures pos.pnl == 0.0 && pos.pnlPercent == 0.0
    ensures pos.size == margin * leverage
    ensures pos.amountCoin * pos.entryPrice == pos.size
    ensures pos.liquidationPrice == match dir
      case Long => price * (1.0 - 1.0 / leverage)
      case Short => price * (1.0 + 1.0 / leverage)
    ensures WellFormed(pos)
  {
    OpeningArithmetic(margin, leverage, price);
    var size := margin * leverage;
    var amount := size / price;
    Position(id, symbol, dir, price, price, margin, leverage, size, amount,
             LiquidationPrice(dir, price, margin, amount), 0.0, 0.0)
  }

  /** One visit of the price handler to a position of the updated symbol:
      new current price, pnl and ROE; everything fixed at opening stays. */
  function Reprice(pos: Position, price: real): (r: Position)
    requires pos.margin != 0.0
    ensures r.(currentPrice := pos.currentPrice, pnl := pos.pnl, pnlPercent := pos.pnlPercent) == pos
    ensures r.currentPrice == price
    ensures r.pnl == Pnl(pos.direction, pos.entryPrice, price, pos.amountCoin)
  {
    var pnl := Pnl(pos.direction, pos.entryPrice, price, pos.amountCoin);
    pos.(currentPrice := price, pnl := pnl, pnlPercent := pnl / pos.margin * 100.0)
  }

  /** A position with positive coin amount is in profit exactly when the
      price has moved its way: up for a long, down for a short. */
  lemma PnlSign(dir: Direction, entry: real, price: real, amount: real)
    requires amount > 0.0
    ensures Pnl(dir, entry, price, amount) > 0.0 <==> (dir == Long && price > entry) || (dir == Short && price < entry)
    ensures Pnl(dir, entry, price, amount) == 0.0 <==> price == entry
  {
  }

  /** At the liquidation price the loss is exactly the margin. */
  lemma LiquidationPriceLosesMargin(dir: Direction, entry: real, margin: real, amount: real)
    requires amount != 0.0
    ensures Pnl(dir, entry, LiquidationPrice(dir, entry, margin, amount), amount) == -margin
  {
    assert margin / amount * amount == margin;
  }

  /** With a positive margin, the liquidation check is an ROE of -100% or worse. */
  lemma LiquidatableIffRoeAtMinus100(pos: Position)
    requires pos.margin > 0.0 && pos.pnlPercent == pos.pnl / pos.margin * 100.0
    ensures IsLiquidatable(pos) <==> pos.pnlPercent <= -100.0
  {
    assert pos.pnl / pos.margin * pos.margin == pos.pnl;
  }

  /** Repricing a well-formed position at the price it already shows changes nothing. */
  lemma RepriceAtCurrentPrice(pos: Position)
    requires WellFormed(pos)
    ensures Reprice(pos, pos.currentPrice) == pos
  {
  }

  /** Only the latest price counts: repricing twice is repricing once at the second price. */
  lemma RepriceLastWins(pos: Position, first: real, second: real)
    requires pos.margin != 0.0
    ensures Reprice(Reprice(pos, first), second) == Reprice(pos, second)
  {
  }

  /** The ROE of a move of `move` on `a = m·l/e` coins with margin `m`. */
  lemma ReturnOnMargin(move: real, m: real, l: real, e: real, a: real, pnl: real, pct: real)
    requires m != 0.0 && e != 0.0
    requires a == m * l / e && pnl == move * a && pct == pnl / m * 100.0
    ensures pct == l * move / e * 100.0
  {
    assert move * (m * l / e) == m * (l * move / e);
  }

  /** The ROE of a position bought with margin × leverage worth of coin (as
      every open position is) is its leverage times the relative price move
      in its favour, in percent. */
  lemma RoeIsLeveragedReturn(pos: Position, price: real)
    requires pos.margin != 0.0 && pos.entryPrice != 0.0
    requires pos.amountCoin == pos.margin * pos.leverage / pos.entryPrice
    ensures Reprice(pos, price).pnlPercent == match pos.direction
      case Long => pos.leverage * (price - pos.entryPrice) / pos.entryPrice * 100.0
      case Short => pos.leverage * (pos.entryPrice - price) / pos.entryPrice * 100.0
  {
    var e, m, l := pos.entryPrice, pos.margin, pos.leverage;
    var move := if pos.direction == Long then price - e else e - price;
    var q := Reprice(pos, price);
    ReturnOnMargin(move, m, l, e, pos.amountCoin, q.pnl, q.pnlPercent);
  }

  /** With a positive coin amount, losing at least the margin is moving at
      least margin / amount against the position. */
  lemma LossCoversMargin(move: real, m: real, a: real)
    requires a > 0.0
    ensures move * a <= -m <==> move <= -(m / a)
  {
    var d := m / a;
    assert d * a == m;
    assert move * a + m == (move + d) * a;
  }

  /** For a position entered at a positive price, the liquidation check fires
      exactly when the price has reached the liquidation price: at or below it
      for a long, at or above it for a short. */
  lemma LiquidatedIffPriceCrossesLiquidation(pos: Position, price: real)
    requires WellFormed(pos) && pos.entryPrice > 0.0
    ensures IsLiquidatable(Reprice(pos, price)) <==> match pos.direction
      case Long => price <= pos.liquidationPrice
      case Short => price >= pos.liquidationPrice
  {
    var e, m, a := pos.entryPrice, pos.margin, pos.amountCoin;
    assert a > 0.0 by {
      assert a * e == pos.size;
      assert pos.size > 0.0;
    }
    var move := if pos.direction == Long then price - e else e - price;
    assert Reprice(pos, price).pnl == move * a;
    assert pos.liquidationPrice == if pos.direction == Long then e - m / a else e + m / a;
    LossCoversMargin(move, m, a);
  }

  // ---------------------------------------------------------------------
  // Removing one element (Array.prototype.splice(index, 1))
  // ---------------------------------------------------------------------

  /** The list without its element at `i`; the others keep their order. */
  function RemoveAt<T>(s: seq<T>, i: nat): (r: seq<T>)
    requires i < |s|
    ensures |r| == |s| - 1
    ensures forall j :: 0 <= j < i ==> r[j] == s[j]
    ensures forall j :: i <= j < |r| ==> r[j] == s[j + 1]
  {
    s[..i] + s[i + 1..]
  }

  // ---------------------------------------------------------------------
  // Totals over the open positions
  // ---------------------------------------------------------------------

  function MarginOf(pos: Position): real { pos.margin }

  /** What closing the position at its current price would pay back. */
  function ValueOf(pos: Position): real { pos.margin + pos.pnl }

  function SumBy(ps: seq<Position>, f: Position -> real): real
  {
    if ps == [] then 0.0 else f(ps[0]) + SumBy(ps[1..], f)
  }

  /** Margin committed to the open positions. */
  function TotalMargin(ps: seq<Position>): real { SumBy(ps, MarginOf) }

  /** What closing every open position now would pay back. */
  function TotalValue(ps: seq<Position>): real { SumBy(ps, ValueOf) }

  lemma {:induction false} SumByAppend(a: seq<Position>, b: seq<Position>, f: Position -> real)
    ensures SumBy(a + b, f) == SumBy(a, f) + SumBy(b, f)
  {
    if a == [] {
      assert a + b == b;
    } else {
      assert (a + b)[1..] == a[1..] + b;
      SumByAppend(a[1..], b, f);
    }
  }

  /** Taking one position out of the list takes exactly its share out of any total. */
  lemma SumByRemoveAt(ps: seq<Position>, i: nat, f: Position -> real)
    requires i < |ps|
    ensures SumBy(RemoveAt(ps, i), f) == SumBy(ps, f) - f(ps[i])
  {
    assert ps == ps[..i] + ([ps[i]] + ps[i + 1..]);
    SumByAppend(ps[..i], [ps[i]] + ps[i + 1..], f);
    SumByAppend(ps[..i], ps[i + 1..], f);
    assert SumBy([ps[i]] + ps[i + 1..], f) == f(ps[i]) + SumBy(ps[i + 1..], f) by {
      assert ([ps[i]] + ps[i + 1..])[1..] == ps[i + 1..];
    }
  }

  // ---------------------------------------------------------------------
  // The price handler's pass over the open positions
  // ---------------------------------------------------------------------

  /** The open positions after one price update for `symbol`, as the
      component's `forEach` produces them. Positions of other symbols are
      kept. A matching position is repriced and, when liquidatable, removed
      with `splice` during the iteration; `forEach` then moves on to the next
      index, so the position that slid into the freed slot is passed over and
      kept exactly as it was. */
  function UpdatedPositions(ps: seq<Position>, symbol: string, price: real): (r: seq<Position>)
    requires MarginsNonzero(ps)
    ensures |r| <= |ps|
    decreases |ps|
  {
    if ps == [] then []
    else if ps[0].symbol != symbol then [ps[0]] + UpdatedPositions(ps[1..], symbol, price)
    else
      var q := Reprice(ps[0], price);
      if !IsLiquidatable(q) then [q] + UpdatedPositions(ps[1..], symbol, price)
      else if |ps| == 1 then []
      else [ps[1]] + UpdatedPositions(ps[2..], symbol, price)
  }

  /** The update the price handler evidently intends: every position of the
      symbol is repriced, and those that reached liquidation are removed. */
  function RepricedPositions(ps: seq<Position>, symbol: string, price: real): (r: seq<Position>)
    requires MarginsNonzero(ps)
    ensures |r| <= |ps|
    ensures forall i :: 0 <= i < |r| && r[i].symbol == symbol ==>
      r[i].currentPrice == price && !IsLiquidatable(r[i])
    ensures OtherSymbols(r, symbol) == OtherSymbols(ps, symbol)
    ensures forall x :: x in ps && x.symbol == symbol && !IsLiquidatable(Reprice(x, price)) ==>
      Reprice(x, price) in r
    ensures |r| == |ps| - LiquidatedCount(ps, symbol, price)
  {
    if ps == [] then []
    else
      var rest := RepricedPositions(ps[1..], symbol, price);
      assert forall x :: x in ps[1..] ==> x in ps;
      if ps[0].symbol != symbol then
        OtherSymbolsCons(ps[0], rest, symbol);
        [ps[0]] + rest
      else
        var q := Reprice(ps[0], price);
        if IsLiquidatable(q) then rest
        else
          assert ps[0] in ps;
          OtherSymbolsCons(q, rest, symbol);
          [q] + rest
  }

  /** How many positions of `symbol` reach liquidation at `price`. */
  function LiquidatedCount(ps: seq<Position>, symbol: string, price: real): nat
    requires MarginsNonzero(ps)
  {
    if ps == [] then 0
    else (if ps[0].symbol == symbol && IsLiquidatable(Reprice(ps[0], price)) then 1 else 0)
         + LiquidatedCount(ps[1..], symbol, price)
  }

  /** The positions not on `symbol`, in order. */
  function OtherSymbols(ps: seq<Position>, symbol: string): seq<Position>
  {
    if ps == [] then []
    else (if ps[0].symbol != symbol then [ps[0]] else []) + OtherSymbols(ps[1..], symbol)
  }

  lemma {:induction false} OtherSymbolsCons(x: Position, ps: seq<Position>, symbol: string)
    ensures OtherSymbols([x] + ps, symbol) == (if x.symbol != symbol then [x] else []) + OtherSymbols(ps, symbol)
  {
    assert ([x] + ps)[1..] == ps;
  }

  /** A price update for one symbol leaves every position of other symbols
      where and as it was, relative to one another. */
  lemma {:induction false} UpdatedKeepsOtherSymbols(ps: seq<Position>, symbol: string, price: real)
    requires MarginsNonzero(ps)
    ensures OtherSymbols(UpdatedPositions(ps, symbol, price), symbol) == OtherSymbols(ps, symbol)
  {
    if ps == [] {
    } else if ps[0].symbol != symbol {
      UpdatedKeepsOtherSymbols(ps[1..], symbol, price);
      OtherSymbolsCons(ps[0], UpdatedPositions(ps[1..], symbol, price), symbol);
    } else {
      var q := Reprice(ps[0], price);
      if !IsLiquidatable(q) {
        UpdatedKeepsOtherSymbols(ps[1..], symbol, price);
        OtherSymbolsCons(q, UpdatedPositions(ps[1..], symbol, price), symbol);
      } else if |ps| == 1 {
      } else {
        UpdatedKeepsOtherSymbols(ps[2..], symbol, price);
        OtherSymbolsCons(ps[1], UpdatedPositions(ps[2..], symbol, price), symbol);
        assert ps[1..][1..] == ps[2..];
      }
    }
  }

  /** Repricing keeps a well-formed position well formed unless it reached liquidation. */
  lemma RepriceWellFormed(pos: Position, price: real)
    requires WellFormed(pos) && !IsLiquidatable(Reprice(pos, price))
    ensures WellFormed(Reprice(pos, price))
  {
  }

  /** After a price update every open position is still well formed: in
      particular none that was visited is at or beyond liquidation, and the
      ones passed over keep their earlier, safe figures. */
  lemma {:induction false} UpdatedPreservesWellFormed(ps: seq<Position>, symbol: string, price: real)
    requires AllWellFormed(ps)
    ensures MarginsNonzero(ps)
    ensures AllWellFormed(UpdatedPositions(ps, symbol, price))
  {
    if ps == [] {
    } else if ps[0].symbol != symbol {
      UpdatedPreservesWellFormed(ps[1..], symbol, price);
    } else {
      var q := Reprice(ps[0], price);
      if !IsLiquidatable(q) {
        RepriceWellFormed(ps[0], price);
        UpdatedPreservesWellFormed(ps[1..], symbol, price);
      } else if |ps| == 1 {
      } else {
        UpdatedPreservesWellFormed(ps[2..], symbol, price);
      }
    }
  }

  /** Every position left after an update was already open: either kept as
      it was, or a repriced, non-liquidatable position of the symbol. */
  lemma {:induction false} UpdatedPositionsComeFromOld(ps: seq<Position>, symbol: string, price: real)
    requires MarginsNonzero(ps)
    ensures forall q :: q in UpdatedPositions(ps, symbol, price) ==>
      q in ps || (exists x :: x in ps && x.symbol == symbol && q == Reprice(x, price) && !IsLiquidatable(q))
  {
    if ps == [] {
    } else if ps[0].symbol != symbol {
      UpdatedPositionsComeFromOld(ps[1..], symbol, price);
    } else {
      var q := Reprice(ps[0], price);
      if !IsLiquidatable(q) {
        UpdatedPositionsComeFromOld(ps[1..], symbol, price);
      } else if |ps| == 1 {
      } else {
        UpdatedPositionsComeFromOld(ps[2..], symbol, price);
      }
    }
  }

  /** Every position open before an update is accounted for afterwards:
      still there as it was, there repriced, or a position of the symbol
      that reached liquidation. */
  lemma {:induction false} UpdatedKeepsOrLiquidates(ps: seq<Position>, symbol: string, price: real)
    requires MarginsNonzero(ps)
    ensures forall x :: x in ps ==>
      var u := UpdatedPositions(ps, symbol, price);
      x in u || Reprice(x, price) in u || (x.symbol == symbol && IsLiquidatable(Reprice(x, price)))
  {
    if ps == [] {
    } else if ps[0].symbol != symbol {
      UpdatedKeepsOrLiquidates(ps[1..], symbol, price);
      assert ps == [ps[0]] + ps[1..];
    } else {
      var q := Reprice(ps[0], price);
      if !IsLiquidatable(q) {
        UpdatedKeepsOrLiquidates(ps[1..], symbol, price);
        assert ps == [ps[0]] + ps[1..];
      } else if |ps| == 1 {
      } else {
        UpdatedKeepsOrLiquidates(ps[2..], symbol, price);
        assert ps == [ps[0], ps[1]] + ps[2..];
      }
    }
  }

  /** Every position left by the intended update was open before: unchanged
      on another symbol, or a repricing of a position of the symbol. */
  lemma {:induction false} RepricedPositionsComeFromOld(ps: seq<Position>, symbol: string, price: real)
    requires MarginsNonzero(ps)
    ensures forall q :: q in RepricedPositions(ps, symbol, price) ==>
      (q in ps && q.symbol != symbol) || (exists x :: x in ps && x.symbol == symbol && q == Reprice(x, price))
  {
    if ps != [] {
      RepricedPositionsComeFromOld(ps[1..], symbol, price);
      assert forall x :: x in ps[1..] ==> x in ps;
      assert ps[0] in ps;
    }
  }

  /** Liquidation never adds margin: the margin committed to open positions can only shrink. */
  lemma {:induction false} UpdatedForfeitsMargin(ps: seq<Position>, symbol: string, price: real)
    requires AllWellFormed(ps)
    ensures MarginsNonzero(ps)
    ensures TotalMargin(UpdatedPositions(ps, symbol, price)) <= TotalMargin(ps)
  {
    if ps == [] {
    } else {
      var tail := UpdatedPositions(ps[1..], symbol, price);
      if ps[0].symbol != symbol {
        UpdatedForfeitsMargin(ps[1..], symbol, price);
        assert ([ps[0]] + tail)[1..] == tail;
      } else {
        var q := Reprice(ps[0], price);
        if !IsLiquidatable(q) {
          UpdatedForfeitsMargin(ps[1..], symbol, price);
          assert ([q] + tail)[1..] == tail;
        } else if |ps| == 1 {
        } else {
          var tail2 := UpdatedPositions(ps[2..], symbol, price);
          UpdatedForfeitsMargin(ps[2..], symbol, price);
          assert ([ps[1]] + tail2)[1..] == tail2;
          assert ps[1..][1..] == ps[2..];
          assert TotalMargin(ps[1..]) == ps[1].margin + TotalMargin(ps[2..]);
          assert TotalMargin(ps) == ps[0].margin + TotalMargin(ps[1..]);
        }
      }
    }
  }

  /** When no position of the symbol reaches liquidation, nothing is passed
      over and the component's update is the intended one. */
  lemma {:induction false} UpdatedAgreesWithoutLiquidation(ps: seq<Position>, symbol: string, price: real)
    requires MarginsNonzero(ps)
    requires forall i :: 0 <= i < |ps| && ps[i].symbol == symbol ==> !IsLiquidatable(Reprice(ps[i], price))
    ensures UpdatedPositions(ps, symbol, price) == RepricedPositions(ps, symbol, price)
  {
    if ps != [] {
      assert forall i :: 0 <= i < |ps[1..]| ==> ps[1..][i] == ps[i + 1];
      UpdatedAgreesWithoutLiquidation(ps[1..], symbol, price);
    }
  }

  /** One visit of the price handler that keeps the first unvisited
      position, as `x` (repriced when it is on `symbol`). */
  lemma UpdatedStepKept(rest: seq<Position>, x: Position, symbol: string, price: real)
    requires rest != [] && MarginsNonzero(rest)
    requires x == if rest[0].symbol == symbol then Reprice(rest[0], price) else rest[0]
    requires rest[0].symbol == symbol ==> !IsLiquidatable(x)
    ensures UpdatedPositions(rest, symbol, price) == [x] + UpdatedPositions(rest[1..], symbol, price)
  {
  }

  /** One visit of the price handler that liquidates the first unvisited
      position: the one after it, if any, is passed over unchanged. */
  lemma UpdatedStepLiquidated(rest: seq<Position>, symbol: string, price: real)
    requires rest != [] && MarginsNonzero(rest)
    requires rest[0].symbol == symbol && IsLiquidatable(Reprice(rest[0], price))
    ensures UpdatedPositions(rest, symbol, price)
         == if |rest| == 1 then [] else [rest[1]] + UpdatedPositions(rest[2..], symbol, price)
  {
  }

  /** Visiting the first element of `rest` after the prefix `done`: it joins
      the prefix, or is removed and the next one joins it instead. */
  lemma VisitShapes<T>(done: seq<T>, rest: seq<T>, x: T, tail: seq<T>)
    requires rest != []
    ensures (done + rest)[|done| := x] == (done + [x]) + rest[1..]
    ensures RemoveAt((done + rest)[|done| := x], |done|) == done + rest[1..]
    ensures done + ([x] + tail) == (done + [x]) + tail
    ensures |rest| > 1 ==> done + rest[1..] == (done + [rest[1]]) + rest[2..]
  {
    assert (done + rest)[|done| := x] == (done + [x]) + rest[1..];
    if |rest| > 1 {
      assert rest[1..] == [rest[1]] + rest[2..];
    }
  }

  /** When the price reaches liquidation for two adjacent positions of the
      symbol, the first is liquidated and the second slides into its slot and
      is passed over: it stays open, unrepriced, although it is past
      liquidation too. The intended update removes both. */
  lemma LiquidationPassesOverNext(a: Position, b: Position, symbol: string, price: real)
    requires a.symbol == symbol && b.symbol == symbol
    requires a.margin != 0.0 && b.margin != 0.0
    requires IsLiquidatable(Reprice(a, price)) && IsLiquidatable(Reprice(b, price))
    ensures UpdatedPositions([a, b], symbol, price) == [b]
    ensures RepricedPositions([a, b], symbol, price) == []
  {
    assert [a, b][1..] == [b] && [a, b][2..] == [];
    assert UpdatedPositions([a, b], symbol, price) == [b] + UpdatedPositions([], symbol, price);
    assert RepricedPositions([b], symbol, price) == RepricedPositions([], symbol, price);
  }

  /** An instance: two long BTC positions entered at 100 with margin 10 at
      10x (one coin each, liquidation price 90) and a trade at 80, a loss of
      20 on each: the second stays open showing the price 100. */
  lemma LiquidationPassesOverNextExample()
    ensures var a := Position(1, "BTCUSDT", Long, 100.0, 100.0, 10.0, 10.0, 100.0, 1.0, 90.0, 0.0, 0.0);
            var b := Position(2, "BTCUSDT", Long, 100.0, 100.0, 10.0, 10.0, 100.0, 1.0, 90.0, 0.0, 0.0);
            UpdatedPositions([a, b], "BTCUSDT", 80.0) == [b]
  {
    var a := Position(1, "BTCUSDT", Long, 100.0, 100.0, 10.0, 10.0, 100.0, 1.0, 90.0, 0.0, 0.0);
    var b := Position(2, "BTCUSDT", Long, 100.0, 100.0, 10.0, 10.0, 100.0, 1.0, 90.0, 0.0, 0.0);
    LiquidationPassesOverNext(a, b, "BTCUSDT", 80.0);
  }

  // ---------------------------------------------------------------------
  // The component
  // ---------------------------------------------------------------------

  /** The trading screen's account state and the operations that change it. */
  class TradingComponent {
    var balance: real
    var inputDeposit: real
    var selectedLeverage: real
    var inputMargin: real
    var marketPrices: map<string, real>
    var openPositions: seq<Position>

    /** The balance never goes negative and every open position is well formed. */
    ghost predicate Valid()
      reads this
    {
      balance >= 0.0 && AllWellFormed(openPositions)
    }

    constructor ()
      ensures Valid()
      ensures balance == 1000.0 && inputDeposit == 0.0
      ensures selectedLeverage == 10.0 && inputMargin == 10.0
      ensures marketPrices == map[] && openPositions == []
    {
      balance := 1000.0;
      inputDeposit := 0.0;
      selectedLeverage := 10.0;
      inputMargin := 10.0;
      marketPrices := map[];
      openPositions := [];
    }

    /** Credits a positive `inputDeposit` and clears it; otherwise does nothing. */
    method DepositFunds()
      requires Valid()
      modifies this`balance, this`inputDeposit
      ensures Valid()
      ensures old(inputDeposit) > 0.0 ==> balance == old(balance) + old(inputDeposit) && inputDeposit == 0.0
      ensures old(inputDeposit) <= 0.0 ==> balance == old(balance) && inputDeposit == old(inputDeposit)
    {
      if inputDeposit > 0.0 {
        balance := balance + inputDeposit;
        inputDeposit := 0.0;
      }
    }

    /** Opens a position on `symbol` at its last known price with the
        selected margin and leverage; `now` stands for the clock reading the
        component uses as id. Rejected, with nothing changed, when no nonzero
        price is known or the margin exceeds the balance. The component does
        not check that margin and leverage are positive; this model requires it. */
    method OpenPosition(symbol: string, dir: Direction, now: int) returns (outcome: OpenOutcome)
      requires Valid()
      requires inputMargin > 0.0 && selectedLeverage > 0.0
      modifies this`balance, this`openPositions
      ensures Valid()
      ensures outcome == if symbol !in marketPrices || marketPrices[symbol] == 0.0 then NoPrice
                         else if inputMargin > old(balance) then InsufficientBalance
                         else Opened
      ensures outcome != Opened ==> balance == old(balance) && openPositions == old(openPositions)
      ensures outcome == Opened ==>
        && balance == old(balance) - inputMargin
        && openPositions == [NewPosition(now, symbol, dir, marketPrices[symbol], inputMargin, selectedLeverage)] + old(openPositions)
      ensures balance + TotalMargin(openPositions) == old(balance + TotalMargin(openPositions))
      ensures balance + TotalValue(openPositions) == old(balance + TotalValue(openPositions))
    {
      if symbol !in marketPrices || marketPrices[symbol] == 0.0 {
        return NoPrice;
      }
      var currentPrice := marketPrices[symbol];
      if inputMargin > balance {
        return InsufficientBalance;
      }
      balance := balance - inputMargin;
      var pos := NewPosition(now, symbol, dir, currentPrice, inputMargin, selectedLeverage);
      ghost var before := openPositions;
      openPositions := [pos] + openPositions;
      assert openPositions[1..] == before;
      outcome := Opened;
    }

    /** Closes the position at `index`: pays back its margin plus its pnl and
        removes it. The component does not check the index. */
    method ClosePosition(index: nat)
      requires Valid()
      requires index < |openPositions|
      modifies this`balance, this`openPositions
      ensures Valid()
      ensures balance == old(balance) + old(openPositions[index].margin) + old(openPositions[index].pnl)
      ensures openPositions == RemoveAt(old(openPositions), index)
      ensures balance + TotalValue(openPositions) == old(balance + TotalValue(openPositions))
    {
      var pos := openPositions[index];
      SumByRemoveAt(openPositions, index, ValueOf);
      balance := balance + (pos.margin + pos.pnl);
      openPositions := RemoveAt(openPositions, index);
    }

    /** Drops the position at `index` without paying anything back. */
    method TriggerLiquidation(index: nat)
      requires index < |openPositions|
      modifies this`openPositions
      ensures openPositions == RemoveAt(old(openPositions), index)
    {
      openPositions := RemoveAt(openPositions, index);
    }

    /** Reprices the positions of `symbol` at `newPrice` and liquidates those
        whose loss reached their margin, iterating as `forEach` does: over the
        indices below the length the list had at the start, skipping those
        that no longer exist. The margins are divisors in the ROE. */
    method UpdatePositionsPnL(symbol: string, newPrice: real)
      requires MarginsNonzero(openPositions)
      modifies this`openPositions
      ensures openPositions == UpdatedPositions(old(openPositions), symbol, newPrice)
    {
      ghost var start := openPositions;
      ghost var done: seq<Position> := [];
      ghost var rest := openPositions;
      var n := |openPositions|;
      var k := 0;
      while k < n
        invariant k <= n
        invariant k + |rest| <= n || rest == []
        invariant |done| <= k
        invariant rest != [] ==> |done| == k
        invariant MarginsNonzero(rest)
        invariant openPositions == done + rest
        invariant UpdatedPositions(start, symbol, newPrice) == done + UpdatedPositions(rest, symbol, newPrice)
      {
        if k < |openPositions| {
          var pos := openPositions[k];
          assert pos == rest[0];
          if pos.symbol == symbol {
            var q := Reprice(pos, newPrice);
            openPositions := openPositions[k := q];
            if IsLiquidatable(q) {
              TriggerLiquidation(k);
              UpdatedStepLiquidated(rest, symbol, newPrice);
              if |rest| > 1 {
                VisitShapes(done, rest, q, UpdatedPositions(rest[2..], symbol, newPrice));
                VisitShapes(done, rest, rest[1], UpdatedPositions(rest[2..], symbol, newPrice));
                done := done + [rest[1]];
                rest := rest[2..];
              } else {
                VisitShapes(done, rest, q, []);
                rest := [];
              }
            } else {
              UpdatedStepKept(rest, q, symbol, newPrice);
              VisitShapes(done, rest, q, UpdatedPositions(rest[1..], symbol, newPrice));
              done := done + [q];
              rest := rest[1..];
            }
          } else {
            UpdatedStepKept(rest, pos, symbol, newPrice);
            VisitShapes(done, rest, pos, UpdatedPositions(rest[1..], symbol, newPrice));
            done := done + [pos];
            rest := rest[1..];
          }
        }
        k := k + 1;
      }
    }

    /** What the stream handler does with a parsed trade: store the price,
        then reprice the open positions of that symbol. */
    method OnTrade(symbol: string, price: real)
      requires Valid()
      modifies this`marketPrices, this`openPositions
      ensures Valid()
      ensures marketPrices == old(marketPrices)[symbol := price]
      ensures openPositions == UpdatedPositions(old(openPositions), symbol, price)
      ensures balance == old(balance)
    {
      UpdatedPreservesWellFormed(openPositions, symbol, price);
      marketPrices := marketPrices[symbol := price];
      UpdatePositionsPnL(symbol, price);
    }

    /** Puts a 0 price in the slot of each of the six listed pairs, which
        `OpenPosition` reads as "no price yet". */
    method InitMarketTable()
      modifies this`marketPrices
      ensures forall i :: 0 <= i < |Pairs| ==> Pairs[i] in marketPrices && marketPrices[Pairs[i]] == 0.0
      ensures forall s :: s in marketPrices <==> s in old(marketPrices) || s in Pairs
      ensures forall s :: s in old(marketPrices) && s !in Pairs ==> marketPrices[s] == old(marketPrices)[s]
    {
      var i := 0;
      while i < |Pairs|
        invariant i <= |Pairs|
        invariant forall j :: 0 <= j < i ==> Pairs[j] in marketPrices && marketPrices[Pairs[j]] == 0.0
        invariant forall s :: s in marketPrices <==> s in old(marketPrices) || s in Pairs[..i]
        invariant forall s :: s in old(marketPrices) && s !in Pairs[..i] ==> marketPrices[s] == old(marketPrices)[s]
      {
        marketPrices := marketPrices[Pairs[i] := 0.0];
        i := i + 1;
      }
      assert Pairs[..i] == Pairs;
    }
  }

  /** No position can be opened on a listed pair right after its slot was initialised. */
  method OpenAfterInitHasNoPrice(c: TradingComponent, symbol: string, dir: Direction, now: int) returns (outcome: OpenOutcome)
    requires c.Valid() && c.inputMargin > 0.0 && c.selectedLeverage > 0.0
    requires symbol in Pairs
    modifies c
    ensures outcome == NoPrice
  {
    c.InitMarketTable();
    outcome := c.OpenPosition(symbol, dir, now);
  }
}
